=== FILE: README.md ===
# Birthday montage page — a Dafny model

The page (`src/App.jsx`) plays a list of configured embed videos back to back
over background music, then shows a gallery of every item. This project models
its logic as pure functions over immutable values:

- `Session`: the view-state machine. The state is the stage (landing, playing,
  gallery), the current index, the cross-fade flag and the background-mute flag.
  Every button handler is one `Event`. A button's event is enabled only on the
  stage where its control is rendered, the timer's `FirePulse` is enabled
  whenever a pulse is pending, whatever the stage, and `Step` returns `None`
  for an event that cannot occur. The end of an item is split into two events: the start of the
  fade pulse and the moment its timer fires. `Effect` is the index-normalising
  effect, and `Dispatch` applies it after a handler that moved the index. `n`
  is the number of configured items.
- `Embed`: the iframe `src` chosen for an address. The YouTube branch strips
  the query with the regular expression `/\?.*$/`. In JavaScript `.` excludes
  line terminators, so the model cuts at the first `?` after the last line
  terminator. The Vimeo branch cuts with `split("?")[0]`.
- `VideoId`: `extractYouTubeID`, with the regular expression written out as
  position predicates. The search is leftmost, the alternatives are tried in
  written order, and greedy quantifiers give back one character at a time.
- `Gallery`: the fallback placeholder thumbnail, the thumbnail choice, and the
  gallery tiles.
- `Config`: the two configured addresses, with what the page makes of them.
- `Text` and `Wrappers`: substring search, `split(c)[0]`, the JavaScript
  character classes, decimal rendering of numbers, and `Option`.

Three facts about the code that shape the model:

- **Empty list.** Nothing guards against an empty list: starting would index
  past the end and fail at `src/App.jsx:130`. The model requires `n >= 1`
  wherever that matters.
- **Idempotence of resolution.** The iframe `src` expression tests for the
  provider anywhere in the address, query included. Idempotence holds when the matched
  provider is named before the query (`Embed.ResolveIdempotent`), and
  `Embed.ResolveNotIdempotentExample` gives an address where it fails.
- **The "ended" notification.** `handleEnded` is defined but attached to no
  element. It is modelled as the two pulse events, as if something delivered
  the notification.

## Model

| member | source | states |
|---|---|---|
| Session.Step | src/App.jsx:34-77 | A button's event is accepted exactly when its control is rendered on the current stage (`Session.Enabled`, the stage tests of src/App.jsx:87-198; a gallery jump only to an existing index). The timer's `FirePulse` is accepted whenever a pulse is pending, whatever the stage. Start and replay give playing at item 0, and a jump gives playing at the chosen index. Every accepted event keeps the index among the configured items. Only mute changes the mute flag, and only the pulse events change the fade flag. |
| Session.Advance | src/App.jsx:51-64 | The advance rule shared by skip and the pulse timer. The index goes up by one exactly when a next item exists, and then the stage is kept. Otherwise the page shows the gallery and keeps the index. Neither flag changes, and the index bound is kept. |
| Session.JumpToTile | src/App.jsx:67-69 | In the gallery, a jump to an existing item plays that item and changes nothing else. |
| Session.Run | src/App.jsx:20-23 | Any sequence of accepted events keeps the index bound `0 <= currentIndex < n`. |
| Session.ReachableValid | src/App.jsx:20-23 | With at least one item, every state reachable from the initial state has its index among the configured items. |
| Session.Effect | src/App.jsx:27-32 | A negative index becomes 0. With a non-empty list, an index past the end sends the page to the gallery and keeps the index; with an empty list the effect does nothing. Afterwards the index is non-negative and names an item or the page shows the gallery. Neither flag changes, and a valid state is left as is. |
| Session.EffectIdempotent | src/App.jsx:27-32 | Applying the effect twice is the same as applying it once, and the result satisfies the post-effect bound. |
| Session.Dispatch | src/App.jsx:27-32 | Handler plus effect accepts the same events as the handler, and from a valid state gives the same result. |
| Session.DispatchIsStep | src/App.jsx:27-32 | From a valid state, any sequence of events with the effect gives the same result as without it. |
| Session.SkipRule | src/App.jsx:59-65 | While playing item i, skip goes to item i + 1 if there is one, and otherwise to the gallery with the index unchanged. The pulse timer applies the same rule and lowers the fade flag. |
| Session.SkipRun | src/App.jsx:59-65 | From item i of n, k < n - i skips play item i + k, and exactly n - i skips open the gallery at the last item. One more skip cannot occur. |
| Session.SkipThroughAll | src/App.jsx:59-65 | From item 0, exactly n skips reach the gallery, and every shorter run is still playing an existing item. |
| Session.PulseIsDelayedSkip | src/App.jsx:47-57 | Beginning the pulse raises the fade flag and changes nothing else. Beginning then firing has the same effect as one skip. |
| Session.MuteInvolution | src/App.jsx:158 | Mute flips only the mute flag, and muting twice restores the state. |
| Session.StageOnlyCommands | src/App.jsx:101-189 | View-all, stop and home change only the stage, to gallery, gallery and landing respectively, and keep the index. |
| Session.TwoItemScenario | src/App.jsx:43-77 | With two items: start plays item 0, the two item ends lead to item 1 and then the gallery, and the first tile plays item 0 again. |
| Embed.StripQueryTail | src/App.jsx:131 | The result is a prefix of the address. It ends exactly at the first `?` that no line terminator follows, or is the whole address when there is no such `?`. |
| Embed.StripQueryTailUnique | src/App.jsx:131 | Those properties determine the strip completely. |
| Embed.CutAtCleanQuery | src/App.jsx:131 | Cutting the last line at its first `?` is the same as cutting the whole address at its first `?` that no line terminator follows. |
| Embed.StripIsSplit | src/App.jsx:131-134 | For an address without line terminators, the regex strip and `split("?")[0]` cut at the same place. |
| Embed.StripKeepsQueryBeforeNewline | src/App.jsx:131 | An example: in `a?b\nc` the `?` is kept, because a line terminator follows it. |
| Embed.ResolveEmbed | src/App.jsx:129-136 | The text before the first `?` is always kept. A YouTube address becomes its query-stripped form (`Embed.StripQueryTail`) plus the YouTube parameters, which for an address with no line terminator is the text before the first `?` plus those parameters. Otherwise a Vimeo address becomes the text before the first `?` plus the Vimeo parameters. Any other address is unchanged. |
| Embed.ResolveReplacesQuery | src/App.jsx:129-132 | A YouTube address part with no `?` and no line terminator plays with the fixed parameters, whatever query without line terminators follows it. |
| Embed.ResolveIdempotent | src/App.jsx:129-136 | Resolving twice equals resolving once, provided the provider that is matched is named before the query. |
| Embed.ResolveNotIdempotentExample | src/App.jsx:129-136 | A Vimeo address whose query mentions `youtube.com` resolves differently the second time. |
| VideoId.HostEnd | src/App.jsx:220 | Where `youtube-nocookie.com/` occurs at the position, the host part ends after it. Where `youtube.com/` occurs, it ends after that. There is no host exactly when neither occurs there. |
| VideoId.LastMarker | src/App.jsx:220 | Finds the last position in range where the marker precedes an identifier (greedy backtracking), or reports that there is none. |
| VideoId.SegmentsAlternative | src/App.jsx:220 | Any capture of the segment alternative is an identifier that directly follows a `/`. |
| VideoId.KeywordAlternative | src/App.jsx:220 | Any capture of the keyword alternative is an identifier two characters after the host, or six characters after it when `embed/` stands there. |
| VideoId.QueryAlternative | src/App.jsx:220 | Any capture of the query alternative is an identifier that directly follows a `?v=` or `&v=` at or after the host. |
| VideoId.SegmentsAlternativeSpec | src/App.jsx:220 | The segment alternative matches exactly as `[^\/\n\s]+\/\S+\/` followed by an identifier does. The segment run must be non-empty and end at a `/`. The capture then follows the last `/` in the non-space run after it that an identifier follows, at least one character into that run. There is no match when no such `/` exists. |
| VideoId.KeywordAlternativeSpec | src/App.jsx:220 | Whichever of `v/`, `embed/` and `e/` stands after the host decides: the identifier must follow it. There is no match when none of them stands there. |
| VideoId.QueryAlternativeSpec | src/App.jsx:220 | The capture follows the last `?v=` or `&v=` before the end of the host's line that an identifier follows. There is no match when there is none. |
| VideoId.WatchAlternatives | src/App.jsx:220 | After `watch?v=` and an identifier, with no later `/` or `=`, the segment and keyword alternatives fail and the query alternative captures that identifier. |
| VideoId.ShortLinkAlternative | src/App.jsx:220 | The identifier follows `youtu.be/`, and there is no match unless `youtu.be/` occurs there. |
| VideoId.MatchAt | src/App.jsx:220 | A match starting at a position begins with one of the hosts and captures a well-formed identifier. |
| VideoId.FirstMatch | src/App.jsx:221 | The leftmost start position, from the given one on, at which the pattern matches, with the position of the identifier captured there. None exactly when no position from there on matches. |
| VideoId.ExtractYouTubeId | src/App.jsx:218-223 | An empty address gives no identifier. Any identifier returned is 11 characters from `[A-Za-z0-9_-]`. No identifier comes back exactly when the address is empty or no position matches. |
| VideoId.ExtractFromLeftmost | src/App.jsx:221-222 | The identifier returned is the one captured at the leftmost matching position. |
| VideoId.ExtractOfFound | src/App.jsx:221-222 | When the leftmost match captures at a position, the identifier returned is the eleven characters there. |
| VideoId.NoMatchInPrefix | src/App.jsx:220 | Every match starts with `y`, so no match starts inside a prefix without one. |
| VideoId.HostEndOf | src/App.jsx:220 | Where either YouTube host occurs, the host part ends right after that host. |
| VideoId.EmbedMatch | src/App.jsx:220 | After a host, `embed/` and an identifier with no later `/`, the pattern captures that identifier. |
| VideoId.WatchMatch | src/App.jsx:220 | After a host, `watch?v=` and an identifier with no later `/` or `=`, the pattern captures that identifier. |
| VideoId.ShortLinkMatch | src/App.jsx:220 | At `youtu.be/` followed by an identifier, the pattern captures that identifier. |
| VideoId.EmbedRoundTrip | src/App.jsx:218-223 | `…youtube.com/embed/` or `…youtube-nocookie.com/embed/` followed by an identifier, with no `/` after it, yields exactly that identifier. |
| VideoId.WatchRoundTrip | src/App.jsx:218-223 | `…youtube.com/watch?v=` or `…youtube-nocookie.com/watch?v=` followed by an identifier, with no `/` or `=` after it, yields exactly that identifier. |
| VideoId.ShortLinkRoundTrip | src/App.jsx:218-223 | `…youtu.be/` followed by an identifier yields exactly that identifier, whatever follows it, provided the text before `youtu.be/` contains no `y`. |
| VideoId.NoHostNoId | src/App.jsx:218-223 | An address containing none of `youtube.com/`, `youtube-nocookie.com/` and `youtu.be/` gives no identifier. |
| Text.PrefixBefore | src/App.jsx:134 | `split(c)[0]` is the prefix that ends at the first `c`, or the whole string. |
| Text.Decimal | src/App.jsx:228 | For an array index, `${n}` renders as decimal digits with no leading zero. |
| Text.DecimalRoundTrip | src/App.jsx:228 | Reading the rendered digits back gives the number. |
| Gallery.FallbackColour | src/App.jsx:226-227 | The placeholder colour is one of the five palette colours. |
| Gallery.FallbackThumb | src/App.jsx:225-228 | The placeholder address is the fixed base, then colour `palette[i mod 5]`, then the fixed text parameter, then decimal digits with no leading zero that read back as `i + 1`. |
| Gallery.FallbackColourPeriodic | src/App.jsx:227 | The colour repeats with period five. |
| Gallery.FallbackThumbInjective | src/App.jsx:225-228 | Different items get different placeholder addresses. |
| Gallery.FallbackIsNotProviderImage | src/App.jsx:196 | A placeholder is never an `img.youtube.com/vi/` address, so the two kinds of thumbnail cannot be confused. |
| Gallery.Label | src/App.jsx:205 | The caption is `Video ` followed by decimal digits, with no leading zero, that read back as `i + 1`. |
| Gallery.Thumbnail | src/App.jsx:195-196 | The thumbnail is an `img.youtube.com/vi/` address exactly when an identifier is extracted. That address carries the identifier followed by `/hqdefault.jpg`. When extraction fails, the thumbnail is the placeholder for the tile index. |
| Gallery.Tiles | src/App.jsx:194-205 | One tile per configured address, in order. The tile at position i carries index i, a caption `Video ` followed by digits with no leading zero that read back as i + 1, and the thumbnail for its address, which is a provider image exactly when an identifier is extracted from that address. |
| Gallery.TilesJumpInRange | src/App.jsx:194-198 | The tile at position k carries index k, and clicking it is an enabled jump that plays that existing item. |
| Gallery.LabelsDistinct | src/App.jsx:205 | No two tiles share a caption. |
| Config.ConfiguredThumbnails | src/App.jsx:11-15 | Both configured addresses give their identifiers, so the gallery shows provider images for both. |
| Config.ConfiguredSources | src/App.jsx:11-15 | The first address plays exactly as configured, and the second gets the full YouTube parameter string. |
| Config.ConfiguredScenario | src/App.jsx:11-15 | With the configured list, start followed by two item ends reaches the gallery. |

## Left out

- Background audio (volume, `muted`, `play()` and swallowed rejections): browser media calls. The audio itself is not modelled. Its one effect on the state, the wait in `startSequence`, is the `Session.Step` line below.
- Session.Step: `startSequence` awaits the background audio's `play()` (src/App.jsx:38) before it sets the stage and the index (lines 43-44). The model applies Start at once and only from the landing stage. So a view-all click while `play()` is pending, followed by the delayed start, is not modelled.
- The 600 ms timer: it is one discrete `FirePulse` event. Teardown before it fires is not modelled.
- The stale closure in `handleEnded`: the timer callback tests the index the handler saw, not the current one. `FirePulse` applies the rule to the state at the time it fires, and the model does not represent two pulses pending at once.
- Session.Run: the index bound it keeps, like `Session.ReachableValid`'s, holds for the model's pulse, not the code's. With a pulse begun on item n - 2 and a skip to n - 1 before it fires, the code's callback still tests n - 2 < n - 1 and increments to n (src/App.jsx:51-52), and the next render fails at `currentVideo.includes` (src/App.jsx:130). The model's `FirePulse` re-reads the index and opens the gallery at n - 1. On the real page the pulse events never occur, because `handleEnded` appears only at its definition (src/App.jsx:47).
- Rendering, animation, styling and the iframe element: these are presentation and third-party libraries. Only the computed `src` string and the tile data are modelled.
- Network fetches of thumbnails and placeholder images: only their address strings are modelled.
- `tailwind.config.js`: build configuration with no behaviour.
- An empty video list: the code fails on it, so `n >= 1` is a precondition wherever it matters. `Session.Effect` still models the explicit `n > 0` test.
- Session.ReachableValid: assumes `n >= 1`, because with an empty list no state satisfies the index bound. It also carries the caveat about the pulse given for `Session.Run`.
- VideoId.EmbedRoundTrip: the address must have no `/` after the identifier, because the first alternative would then capture a later identifier. The text before the host must not contain `y`, so that no earlier match can start there.
- VideoId.ShortLinkRoundTrip: the text before `youtu.be/` must not contain `y`, so that no earlier match can start there, as for `VideoId.EmbedRoundTrip`.
- VideoId.WatchRoundTrip: additionally needs no `=` after the identifier, because a later `v=` would win the greedy search.
- Characters are Unicode scalar values, whereas JavaScript strings are UTF-16 code units. Surrogate pairs are not modelled.

=== FILE: config.dfy ===
/** The configured montage: two YouTube embed addresses. The first one's query
    is the very parameter string the player appends to YouTube addresses. */
module Config {
  import opened Wrappers
  import opened Text
  import Embed
  import VideoId
  import Gallery
  import Session

  const FirstVideo := "https://www." + "youtube.com/" + "embed/" + "Y3TAdQq0TKM"
  const SecondVideo := "https://www." + "youtube.com/" + "embed/" + "dQw4w9WgXcQ"

  const VideoUrls: seq<string> := [
    FirstVideo + Embed.YouTubeParams,
    SecondVideo + "?autoplay=1&enablejsapi=1"
  ]

  /** Both configured addresses yield their video identifiers, so the gallery
      shows the provider's still images for both. */
  lemma ConfiguredThumbnails()
    ensures VideoId.ExtractYouTubeId(VideoUrls[0]) == Some("Y3TAdQq0TKM")
    ensures VideoId.ExtractYouTubeId(VideoUrls[1]) == Some("dQw4w9WgXcQ")
    ensures Gallery.Thumbnail(VideoUrls[0], 0) == Gallery.ThumbBase + "Y3TAdQq0TKM" + Gallery.ThumbSuffix
    ensures Gallery.Thumbnail(VideoUrls[1], 1) == Gallery.ThumbBase + "dQw4w9WgXcQ" + Gallery.ThumbSuffix
  {
    Embed.YouTubeParamsPlain();
    assert VideoId.IsVideoId("Y3TAdQq0TKM");
    assert VideoId.IsVideoId("dQw4w9WgXcQ");
    VideoId.EmbedRoundTrip("https://www.", "youtube.com/", "Y3TAdQq0TKM", Embed.YouTubeParams);
    VideoId.EmbedRoundTrip("https://www.", "youtube.com/", "dQw4w9WgXcQ", "?autoplay=1&enablejsapi=1");
  }

  /** The player's source for the first item is its configured address
      unchanged; the second gets the full YouTube parameter string. */
  lemma ConfiguredSources()
    ensures Embed.ResolveEmbed(VideoUrls[0]) == VideoUrls[0]
    ensures Embed.ResolveEmbed(VideoUrls[1]) == SecondVideo + Embed.YouTubeParams
  {
    FirstSource();
    SecondSource();
  }

  lemma FirstSource()
    ensures Embed.ResolveEmbed(FirstVideo + Embed.YouTubeParams) == FirstVideo + Embed.YouTubeParams
  {
    Embed.YouTubeParamsPlain();
    assert NoLineTerminator(FirstVideo) && '?' !in FirstVideo;
    OccursAtConcat("https://www.", Embed.YouTubeHost, "/embed/" + "Y3TAdQq0TKM");
    assert FirstVideo == "https://www." + Embed.YouTubeHost + ("/embed/" + "Y3TAdQq0TKM");
    Embed.ResolveReplacesQuery(FirstVideo, Embed.YouTubeParams);
  }

  lemma SecondSource()
    ensures Embed.ResolveEmbed(SecondVideo + "?autoplay=1&enablejsapi=1") == SecondVideo + Embed.YouTubeParams
  {
    assert NoLineTerminator(SecondVideo) && '?' !in SecondVideo;
    assert NoLineTerminator("?autoplay=1&enablejsapi=1");
    OccursAtConcat("https://www.", Embed.YouTubeHost, "/embed/" + "dQw4w9WgXcQ");
    assert SecondVideo == "https://www." + Embed.YouTubeHost + ("/embed/" + "dQw4w9WgXcQ");
    Embed.ResolveReplacesQuery(SecondVideo, "?autoplay=1&enablejsapi=1");
  }

  /** With the configured list: start, two item ends, then the first tile. */
  lemma ConfiguredScenario()
    ensures |VideoUrls| == 2
    ensures Session.Run(|VideoUrls|, Session.Init,
      [Session.Start, Session.BeginPulse, Session.FirePulse, Session.BeginPulse, Session.FirePulse])
      == Some(Session.State(Session.Gallery, 1, false, false))
  {
    Session.TwoItemScenario();
  }
}

=== FILE: embed.dfy ===
/** The iframe source chosen for the playing item: a YouTube or Vimeo address
    has its query replaced by the provider's fixed autoplay parameters, any
    other address is used as configured. */
module Embed {
  import opened Text

  const YouTubeHost := "youtube.com"
  const VimeoHost := "vimeo.com"
  /** The fixed query appended to YouTube addresses, written in pieces so that
      `Text.PlainChunk` can be applied to each. */
  const YouTubeParams := "?autoplay=1&enablejsapi=1" + "&controls=0" + "&modestbranding=1"
    + "&rel=0&fs=0" + "&iv_load_policy=3" + "&disablekb=1"
  /** The fixed query appended to Vimeo addresses. */
  const VimeoParams := "?autoplay=1" + "&controls=0" + "&background=0"

  /** A `?` from which the pattern `\?.*$` reaches the end of the string: no
      line terminator follows it. */
  predicate CleanQueryAt(u: string, i: int) {
    0 <= i < |u| && u[i] == '?' && forall k :: i < k < |u| ==> !IsLineTerminator(u[k])
  }

  /** `u.replace(/\?.*$/, "")`: `u` cut at the first `?` that no line
      terminator follows, or `u` itself when there is no such `?`. */
  function StripQueryTail(u: string): (r: string)
    ensures r <= u
    ensures |r| < |u| ==> CleanQueryAt(u, |r|)
    ensures forall i :: 0 <= i < |r| ==> !CleanQueryAt(u, i)
  {
    var l := LastLineStart(u);
    CutAtCleanQuery(u, l);
    u[..l] + PrefixBefore(u[l..], '?')
  }

  /** Cutting the last line of `u`, which starts at `l`, at its first `?`
      cuts `u` at its first clean `?`. */
  lemma CutAtCleanQuery(u: string, l: nat)
    requires l <= |u|
    requires forall k :: l <= k < |u| ==> !IsLineTerminator(u[k])
    requires l > 0 ==> IsLineTerminator(u[l - 1])
    ensures u[..l] + PrefixBefore(u[l..], '?') <= u
    ensures var r := u[..l] + PrefixBefore(u[l..], '?');
      |r| < |u| ==> CleanQueryAt(u, |r|)
    ensures var r := u[..l] + PrefixBefore(u[l..], '?');
      forall i :: 0 <= i < |r| ==> !CleanQueryAt(u, i)
  {
    var v := u[l..];
    var p := PrefixBefore(v, '?');
    var r := u[..l] + p;
    forall i | l <= i < l + |p|
      ensures u[i] == r[i] && u[i] != '?'
    {
      assert u[i] == v[i - l] == p[i - l];
    }
    assert r <= u;
    if |r| < |u| {
      assert u[|r|] == v[|p|];
    }
    forall i | 0 <= i < |r|
      ensures !CleanQueryAt(u, i)
    {
      if i < l - 1 {
        assert IsLineTerminator(u[l - 1]);
      }
    }
  }

  /** The three properties of `StripQueryTail` determine it. */
  lemma StripQueryTailUnique(u: string, q: string)
    requires q <= u
    requires |q| < |u| ==> CleanQueryAt(u, |q|)
    requires forall i :: 0 <= i < |q| ==> !CleanQueryAt(u, i)
    ensures StripQueryTail(u) == q
  {
    var r := StripQueryTail(u);
    assert |r| == |q|;
  }

  /** The iframe `src` for a configured address. */
  function ResolveEmbed(u: string): (r: string)
    ensures PrefixBefore(u, '?') <= r
    ensures Contains(u, YouTubeHost) ==> r == StripQueryTail(u) + YouTubeParams
    ensures Contains(u, YouTubeHost) && NoLineTerminator(u) ==>
      r == PrefixBefore(u, '?') + YouTubeParams
    ensures !Contains(u, YouTubeHost) && Contains(u, VimeoHost) ==>
      r == PrefixBefore(u, '?') + VimeoParams
    ensures !Contains(u, YouTubeHost) && !Contains(u, VimeoHost) ==> r == u
  {
    if Contains(u, YouTubeHost) then
      SplitPrefixOfStrip(u);
      StripIsSplit(u);
      StripQueryTail(u) + YouTubeParams
    else if Contains(u, VimeoHost) then
      PrefixBefore(u, '?') + VimeoParams
    else
      u
  }

  /** Without line terminators, the regular-expression strip of the YouTube
      branch and the `split` of the Vimeo branch cut at the same place. */
  lemma StripIsSplit(u: string)
    ensures NoLineTerminator(u) ==> StripQueryTail(u) == PrefixBefore(u, '?')
  {
    if NoLineTerminator(u) {
      StripQueryTailUnique(u, PrefixBefore(u, '?'));
    }
  }

  /** The text before the first `?` is always kept by the strip. */
  lemma SplitPrefixOfStrip(u: string)
    ensures PrefixBefore(u, '?') <= StripQueryTail(u)
  {
    var q := PrefixBefore(u, '?');
    var r := StripQueryTail(u);
    assert |q| <= |r|;
  }

  /** A YouTube address `a` with query `q` plays as `a` with the fixed
      parameters, whatever `q` was. */
  lemma ResolveReplacesQuery(a: string, q: string)
    requires Contains(a, YouTubeHost) && NoLineTerminator(a) && '?' !in a
    requires NoLineTerminator(q) && (|q| > 0 ==> q[0] == '?')
    ensures ResolveEmbed(a + q) == a + YouTubeParams
  {
    ContainsInPrefix(a, a + q, YouTubeHost);
    NoLineTerminatorConcat(a, q);
    PrefixBeforeUnique(a + q, '?', a);
  }

  /** With a line terminator after the only `?`, the strip keeps the query. */
  lemma StripKeepsQueryBeforeNewline()
    ensures StripQueryTail("a?b\nc") == "a?b\nc"
  {
    var u := "a?b\nc";
    assert !CleanQueryAt(u, 1) by { assert IsLineTerminator(u[3]); }
    StripQueryTailUnique(u, u);
  }

  /** The provider whose branch is taken is named in the address before its
      query string. */
  predicate HostBeforeQuery(u: string) {
    && (Contains(u, YouTubeHost) ==> Contains(PrefixBefore(u, '?'), YouTubeHost))
    && (!Contains(u, YouTubeHost) && Contains(u, VimeoHost) ==>
          Contains(PrefixBefore(u, '?'), VimeoHost))
  }

  lemma YouTubeParamsPlain()
    ensures YouTubeParams[0] == '?' && '.' !in YouTubeParams && '/' !in YouTubeParams
    ensures NoLineTerminator(YouTubeParams)
  {
    var y1, y2, y3 := "?autoplay=1&enablejsapi=1", "&controls=0", "&modestbranding=1";
    var y4, y5, y6 := "&rel=0&fs=0", "&iv_load_policy=3", "&disablekb=1";
    assert '.' !in y1 && '/' !in y1 && NoLineTerminator(y1) by { PlainChunk(y1); }
    assert '.' !in y2 && '/' !in y2 && NoLineTerminator(y2) by { PlainChunk(y2); }
    assert '.' !in y3 && '/' !in y3 && NoLineTerminator(y3) by { PlainChunk(y3); }
    assert '.' !in y4 && '/' !in y4 && NoLineTerminator(y4) by { PlainChunk(y4); }
    assert '.' !in y5 && '/' !in y5 && NoLineTerminator(y5) by { PlainChunk(y5); }
    assert '.' !in y6 && '/' !in y6 && NoLineTerminator(y6) by { PlainChunk(y6); }
    NoLineTerminatorConcat(y1, y2);
    NoLineTerminatorConcat(y1 + y2, y3);
    NoLineTerminatorConcat(y1 + y2 + y3, y4);
    NoLineTerminatorConcat(y1 + y2 + y3 + y4, y5);
    NoLineTerminatorConcat(y1 + y2 + y3 + y4 + y5, y6);
  }

  lemma VimeoParamsPlain()
    ensures VimeoParams[0] == '?' && '.' !in VimeoParams
  {
    assert '.' !in "?autoplay=1" && '.' !in "&controls=0" && '.' !in "&background=0";
  }

  lemma HostsPlain()
    ensures '?' !in YouTubeHost && '?' !in VimeoHost
    ensures YouTubeHost[0] == 'y' && YouTubeHost[7] == '.' && VimeoHost[5] == '.'
  {
  }

  /** Resolving a resolved address changes nothing, when the provider is named
      before the query. */
  lemma ResolveIdempotent(u: string)
    requires HostBeforeQuery(u)
    ensures ResolveEmbed(ResolveEmbed(u)) == ResolveEmbed(u)
  {
    YouTubeParamsPlain();
    VimeoParamsPlain();
    HostsPlain();
    var q := PrefixBefore(u, '?');
    if Contains(u, YouTubeHost) {
      var p := StripQueryTail(u);
      var r := p + YouTubeParams;
      SplitPrefixOfStrip(u);
      ContainsInPrefix(q, r, YouTubeHost);
      // the `?` that starts the parameters is the first clean one of r
      assert CleanQueryAt(r, |p|);
      forall i | 0 <= i < |p|
        ensures !CleanQueryAt(r, i)
      {
        assert !CleanQueryAt(u, i);
        if r[i] == '?' {
          var k :| i < k < |u| && IsLineTerminator(u[k]);
          assert k < |p|;
          assert r[k] == u[k];
        }
      }
      StripQueryTailUnique(r, p);
    } else if Contains(u, VimeoHost) {
      var r := q + VimeoParams;
      if Contains(q, YouTubeHost) {
        ContainsInPrefix(q, u, YouTubeHost);
      }
      NotContainsAfterSeparator(q, VimeoParams, YouTubeHost, 7);
      ContainsInPrefix(q, r, VimeoHost);
      PrefixBeforeUnique(r, '?', q);
    }
  }

  /** A Vimeo address whose query mentions `youtube.com`. */
  const VimeoVideo := "https://vimeo.com/76979871"
  const VimeoWithYouTubeQuery := VimeoVideo + "?from=youtube.com"

  lemma ExampleFirstPass()
    ensures ResolveEmbed(VimeoWithYouTubeQuery) == VimeoVideo + YouTubeParams
  {
    var a, b := VimeoVideo, "?from=youtube.com";
    assert NoLineTerminator(a) && '?' !in a;
    assert NoLineTerminator(b);
    NoLineTerminatorConcat(a, b);
    assert OccursAt(b, YouTubeHost, 6);
    ContainsInSuffix(a, b, YouTubeHost);
    PrefixBeforeUnique(a + b, '?', a);
  }

  lemma ExampleSecondPass()
    ensures ResolveEmbed(VimeoVideo + YouTubeParams) == VimeoVideo + VimeoParams
  {
    var a := VimeoVideo;
    YouTubeParamsPlain();
    HostsPlain();
    assert '?' !in a && 'y' !in a;
    var r := a + YouTubeParams;
    NotContainsAcross(a, YouTubeParams, YouTubeHost, 0, 7);
    assert OccursAt(a, VimeoHost, 8);
    ContainsInPrefix(a, r, VimeoHost);
    PrefixBeforeUnique(r, '?', a);
  }

  /** Without the precondition, resolving twice can differ from resolving
      once: the query sends the address down the YouTube branch, and the
      result, which has lost that query, then goes down the Vimeo branch. */
  lemma ResolveNotIdempotentExample()
    ensures ResolveEmbed(ResolveEmbed(VimeoWithYouTubeQuery)) != ResolveEmbed(VimeoWithYouTubeQuery)
  {
    ExampleFirstPass();
    ExampleSecondPass();
    assert |VimeoParams| != |YouTubeParams|;
  }
}

=== FILE: gallery.dfy ===
/** The gallery: one tile per configured item, each with a label and a
    thumbnail, clicking which plays that item. */
module Gallery {
  import opened Wrappers
  import opened Text
  import opened VideoId
  import Session

  /** The placeholder colours, as hexadecimal RGB. */
  const Palette: seq<string> := ["f97316", "fb7185", "60a5fa", "34d399", "f59e0b"]
  const PlaceholderBase := "https://via.placeholder.com/480x270/"
  const PlaceholderText := "/ffffff?text=Video+"
  const ThumbBase := "https://img.youtube.com/vi/"
  const ThumbSuffix := "/hqdefault.jpg"

  /** Where the label number starts in a placeholder address. */
  const LabelOffset := |PlaceholderBase| + 6 + |PlaceholderText|

  /** `colors[i % colors.length]`. */
  function FallbackColour(i: nat): (c: string)
    ensures c in Palette && |c| == 6
  {
    Palette[i % |Palette|]
  }

  /** `generateFallbackThumb(i)`: a placeholder image in the item's colour
      whose overlay text is `Video+<i+1>`. The address splits into the fixed
      base, the colour, the fixed text parameter and the label number, and
      the label, with no leading zero, reads back as the one-based position
      of the item. */
  function FallbackThumb(i: nat): (r: string)
    ensures PlaceholderBase <= r && |r| > LabelOffset
    ensures r[|PlaceholderBase|..|PlaceholderBase| + 6] == Palette[i % 5]
    ensures r[|PlaceholderBase| + 6..LabelOffset] == PlaceholderText
    ensures IsDigits(r[LabelOffset..]) && DigitsValue(r[LabelOffset..]) == i + 1
    ensures r[LabelOffset] != '0'
  {
    var b, c, t, d := PlaceholderBase, FallbackColour(i), PlaceholderText, Decimal(i + 1);
    assert (b + c + t + d)[..|b|] == b;
    assert (b + c + t + d)[|b|..|b| + 6] == c;
    assert (b + c + t + d)[|b| + 6..|b| + 6 + |t|] == t;
    assert (b + c + t + d)[|b| + 6 + |t|..] == d;
    DecimalRoundTrip(i + 1);
    b + c + t + d
  }

  /** The colour repeats with period five, whatever the index. */
  lemma FallbackColourPeriodic(i: nat)
    ensures FallbackColour(i + 5) == FallbackColour(i)
    ensures FallbackColour(i) == Palette[i % 5]
  {
  }

  /** Different items get different placeholders. */
  lemma FallbackThumbInjective(i: nat, j: nat)
    requires FallbackThumb(i) == FallbackThumb(j)
    ensures i == j
  {
    assert FallbackThumb(i)[LabelOffset..] == FallbackThumb(j)[LabelOffset..];
  }

  /** A placeholder is never mistaken for a provider image. */
  lemma FallbackIsNotProviderImage(i: nat)
    ensures !(ThumbBase <= FallbackThumb(i))
  {
    var r := FallbackThumb(i);
    assert r[8] == PlaceholderBase[8] == 'v';
    assert ThumbBase[8] == 'i';
  }

  /** The thumbnail of item `i` with address `url`: the provider's still image
      exactly when an identifier can be extracted, and then it carries that
      identifier; the placeholder otherwise. */
  function Thumbnail(url: string, i: nat): (r: string)
    ensures ThumbBase <= r <==> ExtractYouTubeId(url).Some?
    ensures ExtractYouTubeId(url).Some? ==>
      && |r| == |ThumbBase| + IdLength + |ThumbSuffix|
      && r[|ThumbBase|..|ThumbBase| + IdLength] == ExtractYouTubeId(url).value
      && r[|ThumbBase| + IdLength..] == ThumbSuffix
    ensures ExtractYouTubeId(url).None? ==> r == FallbackThumb(i)
  {
    match ExtractYouTubeId(url)
    case Some(id) =>
      assert (ThumbBase + id + ThumbSuffix)[..|ThumbBase|] == ThumbBase;
      assert (ThumbBase + id + ThumbSuffix)[|ThumbBase|..|ThumbBase| + IdLength] == id;
      assert (ThumbBase + id + ThumbSuffix)[|ThumbBase| + IdLength..] == ThumbSuffix;
      ThumbBase + id + ThumbSuffix
    case None =>
      FallbackIsNotProviderImage(i);
      FallbackThumb(i)
  }

  /** `Video <i+1>`, the caption of a tile: the word, a space, and the
      one-based position in decimal, with no leading zero. */
  function Label(i: nat): (r: string)
    ensures |r| > 6 && r[..6] == "Video "
    ensures IsDigits(r[6..]) && DigitsValue(r[6..]) == i + 1
    ensures r[6] != '0'
  {
    assert ("Video " + Decimal(i + 1))[6..] == Decimal(i + 1);
    DecimalRoundTrip(i + 1);
    "Video " + Decimal(i + 1)
  }

  datatype Tile = Tile(index: nat, caption: string, thumb: string)

  /** The tiles of the gallery, in configuration order. */
  function Tiles(urls: seq<string>): (ts: seq<Tile>)
    ensures |ts| == |urls|
    ensures forall i :: 0 <= i < |ts| ==> ts[i].index == i
    ensures forall i :: 0 <= i < |ts| ==>
      |ts[i].caption| > 6 && ts[i].caption[..6] == "Video " && IsDigits(ts[i].caption[6..]) && DigitsValue(ts[i].caption[6..]) == i + 1
      && ts[i].caption[6] != '0'
    ensures forall i :: 0 <= i < |ts| ==>
      (ThumbBase <= ts[i].thumb <==> ExtractYouTubeId(urls[i]).Some?)
    ensures forall i :: 0 <= i < |ts| ==> ts[i].thumb == Thumbnail(urls[i], i)
  {
    seq(|urls|, i requires 0 <= i < |urls| => Tile(i, Label(i), Thumbnail(urls[i], i)))
  }

  /** Every tile plays an item that exists: the tile at position k carries
      index k, and its jump is enabled in the gallery and leads to a playing
      state whose index is valid. */
  lemma TilesJumpInRange(urls: seq<string>, s: Session.State, k: int)
    requires s.stage == Session.Gallery
    requires 0 <= k < |Tiles(urls)|
    ensures Tiles(urls)[k].index == k < |urls|
    ensures Session.Step(|urls|, s, Session.JumpTo(Tiles(urls)[k].index)) ==
      Some(s.(stage := Session.Playing, currentIndex := k))
    ensures Session.Valid(|urls|, Session.Step(|urls|, s, Session.JumpTo(Tiles(urls)[k].index)).value)
  {
    Session.JumpToTile(|urls|, s, k);
  }

  /** No two tiles share a caption. */
  lemma LabelsDistinct(urls: seq<string>, i: int, j: int)
    requires 0 <= i < j < |urls|
    ensures Tiles(urls)[i].caption != Tiles(urls)[j].caption
  {
  }
}

=== FILE: session.dfy ===
/** The view-state machine of the birthday montage page: which stage is shown,
    which item is playing, the cross-fade flag and the background mute flag.
    Every user interface handler is a pure transition over an immutable state;
    `n` is the number of configured video items. */
module Session {
  import opened Wrappers

  datatype Stage = Landing | Playing | Gallery

  datatype State = State(stage: Stage, currentIndex: int, isTransitioning: bool, bgMuted: bool)

  /** The state the component mounts with. */
  const Init := State(Landing, 0, false, false)

  /** The commands the page can issue. The transition that follows the end of
      an item is split into two events: the start of the fade pulse and the
      moment its timer fires. */
  datatype Event =
    | Start          // "Play Surprise" on the landing page
    | ViewAll        // "View All Videos" on the landing page
    | Skip           // the skip button over the player
    | BeginPulse     // the item reported that it ended: fade out
    | FirePulse      // the fade timer elapsed: fade in and advance
    | ToggleMute     // the mute button over the player
    | Stop           // the stop button over the player
    | JumpTo(index: int)  // a gallery tile
    | Replay         // "Replay Sequence" in the gallery
    | Home           // "Back Home" in the gallery

  /** An event can occur only where its control is rendered. A gallery tile
      exists for each configured index and no other; the fade timer fires once
      a pulse has begun, whatever the stage is by then. */
  predicate Enabled(n: nat, s: State, e: Event) {
    match e
    case Start | ViewAll => s.stage == Landing
    case Skip | BeginPulse | ToggleMute | Stop => s.stage == Playing
    case FirePulse => s.isTransitioning
    case JumpTo(i) => s.stage == Gallery && 0 <= i < n
    case Replay | Home => s.stage == Gallery
  }

  /** The index bounds every reachable state keeps (given at least one item). */
  predicate Valid(n: nat, s: State) {
    0 <= s.currentIndex < n
  }

  /** The advance rule shared by skipping and by the end of an item: the next
      item if there is one, otherwise the gallery with the index kept. */
  function Advance(n: nat, s: State): (r: State)
    ensures r.currentIndex == s.currentIndex + 1 <==> s.currentIndex < n - 1
    ensures r.currentIndex != s.currentIndex + 1 ==> r.stage == Gallery && r.currentIndex == s.currentIndex
    ensures r.currentIndex == s.currentIndex + 1 ==> r.stage == s.stage
    ensures r.isTransitioning == s.isTransitioning && r.bgMuted == s.bgMuted
    ensures Valid(n, s) ==> Valid(n, r)
  {
    if s.currentIndex < n - 1 then s.(currentIndex := s.currentIndex + 1)
    else s.(stage := Gallery)
  }

  /** The state after one event, or None when the event cannot occur. */
  function Step(n: nat, s: State, e: Event): (r: Option<State>)
    ensures r.Some? <==> Enabled(n, s, e)
    ensures r.Some? && Valid(n, s) ==> Valid(n, r.value)
    ensures r.Some? && e.JumpTo? ==> r.value.stage == Playing && r.value.currentIndex == e.index
    ensures r.Some? && (e == Start || e == Replay) ==> r.value.stage == Playing && r.value.currentIndex == 0
    ensures r.Some? && e != ToggleMute ==> r.value.bgMuted == s.bgMuted
    ensures r.Some? && e != BeginPulse && e != FirePulse ==> r.value.isTransitioning == s.isTransitioning
  {
    if !Enabled(n, s, e) then None
    else
      Some(match e
        case Start => s.(stage := Playing, currentIndex := 0)
        case ViewAll => s.(stage := Gallery)
        case Skip => Advance(n, s)
        case BeginPulse => s.(isTransitioning := true)
        case FirePulse => Advance(n, s).(isTransitioning := false)
        case ToggleMute => s.(bgMuted := !s.bgMuted)
        case Stop => s.(stage := Gallery)
        case JumpTo(i) => s.(stage := Playing, currentIndex := i)
        case Replay => s.(stage := Playing, currentIndex := 0)
        case Home => s.(stage := Landing))
  }

  /** The effect that runs after a render in which the index changed: a
      negative index is reset to 0, and an index past the end of a non-empty
      list sends the page to the gallery. Both tests read the index the
      render saw. */
  function Effect(n: nat, s: State): (r: State)
    ensures r.currentIndex >= 0
    ensures n >= 1 ==> r.currentIndex < n || r.stage == Gallery
    ensures r.isTransitioning == s.isTransitioning && r.bgMuted == s.bgMuted
    ensures Valid(n, s) ==> r == s
    ensures s.currentIndex < 0 ==> r == s.(currentIndex := 0)
    ensures n > 0 && s.currentIndex >= n ==> r == s.(stage := Gallery)
    ensures n == 0 && s.currentIndex >= 0 ==> r == s
  {
    var t := if s.currentIndex < 0 then s.(currentIndex := 0) else s;
    if s.currentIndex >= n && n > 0 then t.(stage := Gallery) else t
  }

  /** One event as the page performs it: the handler, then the effect when
      the handler changed the index. */
  function Dispatch(n: nat, s: State, e: Event): (r: Option<State>)
    ensures Valid(n, s) ==> r == Step(n, s, e)
    ensures r.Some? <==> Enabled(n, s, e)
  {
    match Step(n, s, e)
    case None => None
    case Some(t) => Some(if t.currentIndex != s.currentIndex then Effect(n, t) else t)
  }

  /** A sequence of events from a state, or None if one of them cannot occur. */
  function Run(n: nat, s: State, events: seq<Event>): (r: Option<State>)
    ensures Valid(n, s) && r.Some? ==> Valid(n, r.value)
    decreases |events|
  {
    if |events| == 0 then Some(s)
    else
      match Step(n, s, events[0])
      case None => None
      case Some(t) => Run(n, t, events[1..])
  }

  function Repeat(e: Event, k: nat): (es: seq<Event>)
    ensures |es| == k && forall j :: 0 <= j < k ==> es[j] == e
  {
    if k == 0 then [] else [e] + Repeat(e, k - 1)
  }

  /** Every state reachable from the initial one keeps its index among the
      configured items. */
  lemma ReachableValid(n: nat, events: seq<Event>)
    requires n >= 1
    requires Run(n, Init, events).Some?
    ensures Valid(n, Run(n, Init, events).value)
  {
  }

  /** The effect never changes a reachable state, so the page behaves as the
      bare handlers do. */
  lemma {:induction false} DispatchIsStep(n: nat, s: State, events: seq<Event>)
    requires Valid(n, s)
    ensures RunDispatch(n, s, events) == Run(n, s, events)
    decreases |events|
  {
    if |events| > 0 {
      match Step(n, s, events[0]) {
        case None =>
        case Some(t) => DispatchIsStep(n, t, events[1..]);
      }
    }
  }

  /** `Run` with the effect applied after every event. */
  function RunDispatch(n: nat, s: State, events: seq<Event>): Option<State>
    decreases |events|
  {
    if |events| == 0 then Some(s)
    else
      match Dispatch(n, s, events[0])
      case None => None
      case Some(t) => RunDispatch(n, t, events[1..])
  }

  /** Skipping from item i of n: after k < n - i skips the page plays item
      i + k; the skip n - i - 1 items later opens the gallery at the last item;
      and then no further skip is possible. */
  lemma {:induction false} SkipRun(n: nat, s: State, k: nat)
    requires Valid(n, s) && s.stage == Playing
    requires k <= n - s.currentIndex
    ensures k < n - s.currentIndex ==>
      Run(n, s, Repeat(Skip, k)) == Some(s.(currentIndex := s.currentIndex + k))
    ensures k == n - s.currentIndex ==>
      Run(n, s, Repeat(Skip, k)) == Some(s.(stage := Gallery, currentIndex := n - 1))
    ensures Run(n, s, Repeat(Skip, n - s.currentIndex + 1)) == None
    decreases n - s.currentIndex
  {
    var m := n - s.currentIndex;
    if s.currentIndex < n - 1 {
      var t := Advance(n, s);
      SkipRun(n, t, if k == 0 then 0 else k - 1);
      if k > 0 {
        assert Repeat(Skip, k)[1..] == Repeat(Skip, k - 1);
      }
      assert Repeat(Skip, m + 1)[1..] == Repeat(Skip, m);
    } else {
      assert Repeat(Skip, 2)[1..] == [Skip];
    }
  }

  /** From the first item, exactly n skips reach the gallery; every earlier
      prefix of the run is still playing. */
  lemma SkipThroughAll(n: nat, s: State)
    requires n >= 1 && s.stage == Playing && s.currentIndex == 0
    ensures Run(n, s, Repeat(Skip, n)) == Some(s.(stage := Gallery, currentIndex := n - 1))
    ensures forall k :: 0 <= k < n ==> Run(n, s, Repeat(Skip, k)) == Some(s.(currentIndex := k))
  {
    SkipRun(n, s, n);
    forall k | 0 <= k < n
      ensures Run(n, s, Repeat(Skip, k)) == Some(s.(currentIndex := k))
    {
      SkipRun(n, s, k);
    }
  }

  /** In the gallery, a jump to an existing item plays it and changes
      nothing else. */
  lemma JumpToTile(n: nat, s: State, i: nat)
    requires s.stage == Gallery && i < n
    ensures Step(n, s, JumpTo(i)) == Some(s.(stage := Playing, currentIndex := i))
    ensures Valid(n, Step(n, s, JumpTo(i)).value)
  {
  }

  /** The skip rule: the next item if there is one, otherwise the gallery
      with the index unchanged; the pulse timer applies the same rule and lowers
      the flag. */
  lemma SkipRule(n: nat, s: State)
    requires s.stage == Playing
    ensures s.currentIndex < n - 1 ==> Step(n, s, Skip) == Some(s.(currentIndex := s.currentIndex + 1))
    ensures s.currentIndex >= n - 1 ==> Step(n, s, Skip) == Some(s.(stage := Gallery))
    ensures s.isTransitioning ==>
      Step(n, s, FirePulse) == Some(Step(n, s, Skip).value.(isTransitioning := false))
  {
  }

  /** The end of an item is a skip spread over two events: beginning the pulse
      raises the flag and changes nothing else, and firing it lowers the flag
      and applies the skip rule. */
  lemma PulseIsDelayedSkip(n: nat, s: State)
    requires s.stage == Playing && !s.isTransitioning
    ensures Step(n, s, BeginPulse) == Some(s.(isTransitioning := true))
    ensures Run(n, s, [BeginPulse, FirePulse]) == Step(n, s, Skip)
  {
    assert [BeginPulse, FirePulse][1..] == [FirePulse];
  }

  /** Muting flips only the mute flag, and muting twice restores the state. */
  lemma MuteInvolution(n: nat, s: State)
    requires s.stage == Playing
    ensures Step(n, s, ToggleMute) == Some(s.(bgMuted := !s.bgMuted))
    ensures Run(n, s, [ToggleMute, ToggleMute]) == Some(s)
  {
    assert [ToggleMute, ToggleMute][1..] == [ToggleMute];
  }

  /** Stop, view-all and home move between stages and keep the index. */
  lemma StageOnlyCommands(n: nat, s: State, e: Event)
    requires e == Stop || e == ViewAll || e == Home
    requires Enabled(n, s, e)
    ensures Step(n, s, e) == Some(s.(stage := if e == Home then Landing else Gallery))
  {
  }

  /** The effect is idempotent, and after it the index is not negative and
      either names an item or the page shows the gallery. */
  lemma EffectIdempotent(n: nat, s: State)
    requires n >= 1
    ensures Effect(n, Effect(n, s)) == Effect(n, s)
    ensures Effect(n, s).currentIndex >= 0
    ensures Effect(n, s).currentIndex < n || Effect(n, s).stage == Gallery
  {
  }

  /** Two items: start, two item ends, then the first gallery tile. */
  lemma TwoItemScenario()
    ensures Run(2, Init, [Start]) == Some(State(Playing, 0, false, false))
    ensures Run(2, Init, [Start, BeginPulse, FirePulse]) == Some(State(Playing, 1, false, false))
    ensures Run(2, Init, [Start, BeginPulse, FirePulse, BeginPulse, FirePulse])
            == Some(State(Gallery, 1, false, false))
    ensures Run(2, Init, [Start, BeginPulse, FirePulse, BeginPulse, FirePulse, JumpTo(0)])
            == Some(State(Playing, 0, false, false))
  {
  }
}

=== FILE: text.dfy ===
/** Optional values, used for the `null` returns of the source. */
module Wrappers {

  datatype Option<+T> = None | Some(value: T) {

    /** The first of two alternatives that succeeds, in order (regex alternation). */
    function OrElse(other: Option<T>): (r: Option<T>)
      ensures Some? ==> r == this
      ensures None? ==> r == other
    {
      if Some? then this else other
    }
  }
}

/** Strings as sequences of characters: substring search, ordered searches over
    positions, the JavaScript character classes the component's regular
    expressions use, and decimal rendering of numbers. */
module Text {
  import opened Wrappers

  /** `sub` occurs in `s` starting at position `i`. */
  predicate OccursAt(s: string, sub: string, i: int) {
    0 <= i && i + |sub| <= |s| && s[i..i + |sub|] == sub
  }

  /** JavaScript `s.includes(sub)`. */
  predicate Contains(s: string, sub: string) {
    exists i | 0 <= i <= |s| - |sub| :: OccursAt(s, sub, i)
  }

  lemma OccursAtChar(s: string, sub: string, i: int, k: int)
    requires OccursAt(s, sub, i) && 0 <= k < |sub|
    ensures s[i + k] == sub[k]
  {
    assert s[i..i + |sub|][k] == s[i + k];
  }

  /** An occurrence in a prefix is an occurrence in the whole string. */
  lemma ContainsInPrefix(a: string, b: string, sub: string)
    requires a <= b && Contains(a, sub)
    ensures Contains(b, sub)
  {
    var i :| 0 <= i <= |a| - |sub| && OccursAt(a, sub, i);
    assert b[i..i + |sub|] == a[i..i + |sub|];
    assert OccursAt(b, sub, i);
  }

  /** An occurrence in a suffix is an occurrence in the whole string. */
  lemma ContainsInSuffix(a: string, b: string, sub: string)
    requires Contains(b, sub)
    ensures Contains(a + b, sub)
  {
    var i :| 0 <= i <= |b| - |sub| && OccursAt(b, sub, i);
    assert (a + b)[|a| + i..|a| + i + |sub|] == b[i..i + |sub|];
    assert OccursAt(a + b, sub, |a| + i);
  }

  lemma ContainsAt(s: string, sub: string, i: int)
    requires OccursAt(s, sub, i)
    ensures Contains(s, sub)
  {
  }

  /** `sub` cannot occur in `a + b` when one of its characters never occurs in
      `a` and a later one never occurs in `b`. */
  lemma NotContainsAcross(a: string, b: string, sub: string, p: int, q: int)
    requires 0 <= p < q < |sub|
    requires sub[p] !in a && sub[q] !in b
    ensures !Contains(a + b, sub)
  {
    if Contains(a + b, sub) {
      var i :| 0 <= i <= |a + b| - |sub| && OccursAt(a + b, sub, i);
      OccursAtChar(a + b, sub, i, p);
      OccursAtChar(a + b, sub, i, q);
    }
  }

  /** An occurrence in `a + b` that is not inside `a` must cross `b[0]`
      or lie inside `b`. */
  lemma NotContainsAfterSeparator(a: string, b: string, sub: string, k: int)
    requires !Contains(a, sub)
    requires |b| > 0 && b[0] !in sub
    requires 0 <= k < |sub| && sub[k] !in b
    ensures !Contains(a + b, sub)
  {
    if Contains(a + b, sub) {
      var i :| 0 <= i <= |a + b| - |sub| && OccursAt(a + b, sub, i);
      if i + |sub| <= |a| {
        assert (a + b)[i..i + |sub|] == a[i..i + |sub|];
        assert OccursAt(a, sub, i);
        assert false;
      } else if i <= |a| {
        OccursAtChar(a + b, sub, i, |a| - i);
      } else {
        OccursAtChar(a + b, sub, i, k);
      }
    }
  }

  /** JavaScript `s.split(c)[0]`: the text before the first `c`, or all of `s`. */
  function PrefixBefore(s: string, c: char): (r: string)
    ensures r <= s
    ensures c !in r
    ensures |r| < |s| ==> s[|r|] == c
  {
    if |s| == 0 || s[0] == c then [] else [s[0]] + PrefixBefore(s[1..], c)
  }

  /** The three properties of `PrefixBefore` determine it. */
  lemma PrefixBeforeUnique(s: string, c: char, q: string)
    requires q <= s && c !in q
    requires |q| < |s| ==> s[|q|] == c
    ensures PrefixBefore(s, c) == q
  {
    var r := PrefixBefore(s, c);
    assert |r| == |q|;
  }

  /** End of the longest run of characters of a class starting at `i`: what a
      greedy `[class]*` consumes. */
  function RunEnd(s: string, i: int, inClass: char -> bool): (e: int)
    requires 0 <= i <= |s|
    ensures i <= e <= |s|
    ensures forall k :: i <= k < e ==> inClass(s[k])
    ensures e < |s| ==> !inClass(s[e])
    decreases |s| - i
  {
    if i == |s| || !inClass(s[i]) then i else RunEnd(s, i + 1, inClass)
  }

  /** JavaScript line terminators: the characters `.` in a regular expression
      does not match. */
  predicate IsLineTerminator(c: char) {
    c == '\n' || c == '\r' || c == '\U{2028}' || c == '\U{2029}'
  }

  /** JavaScript `\s`: white space and line terminators. */
  predicate IsJsSpace(c: char) {
    || c == '\t' || c == '\n' || c == '\U{000B}' || c == '\U{000C}' || c == '\r'
    || c == ' ' || c == '\U{00A0}' || c == '\U{1680}'
    || ('\U{2000}' <= c <= '\U{200A}')
    || c == '\U{2028}' || c == '\U{2029}' || c == '\U{202F}' || c == '\U{205F}'
    || c == '\U{3000}' || c == '\U{FEFF}'
  }

  predicate NoLineTerminator(s: string) {
    forall k :: 0 <= k < |s| ==> !IsLineTerminator(s[k])
  }

  /** Facts about the characters of a short literal, established one
      character at a time. The verifier checks such facts character by
      character, which is too costly for long literals, so the long constants
      of the model are written as concatenations of short pieces and this
      lemma is applied to each piece. */
  lemma PlainChunk(s: string)
    requires |s| <= 26
    requires forall k :: 0 <= k < |s| ==> s[k] != '.' && s[k] != '/' && !IsLineTerminator(s[k])
    ensures '.' !in s && '/' !in s && NoLineTerminator(s)
  {
  }

  lemma OccursAtConcat(a: string, b: string, c: string)
    ensures OccursAt(a + b + c, b, |a|)
  {
    assert (a + b + c)[|a|..|a| + |b|] == b;
  }

  lemma NoLineTerminatorConcat(a: string, b: string)
    requires NoLineTerminator(a) && NoLineTerminator(b)
    ensures NoLineTerminator(a + b)
  {
  }

  /** Position just after the last line terminator of `s`, 0 when there is none. */
  function LastLineStart(s: string): (l: nat)
    ensures l <= |s|
    ensures forall k :: l <= k < |s| ==> !IsLineTerminator(s[k])
    ensures l > 0 ==> IsLineTerminator(s[l - 1])
  {
    if |s| == 0 then 0
    else if IsLineTerminator(s[|s| - 1]) then |s|
    else LastLineStart(s[..|s| - 1])
  }

  predicate IsDigit(c: char) {
    '0' <= c <= '9'
  }

  function DigitChar(d: nat): (c: char)
    requires d < 10
    ensures IsDigit(c)
  {
    (48 + d) as char
  }

  function DigitValue(c: char): (d: nat)
    requires IsDigit(c)
    ensures d < 10 && DigitChar(d) == c
  {
    (c as int - 48) as nat
  }

  /** JavaScript's rendering of an array index (below 2^32), as in a
      template literal `${n}`: decimal digits, no leading zero. Larger
      numbers, which JavaScript writes in exponent notation from 10^21 on,
      do not occur here. */
  function Decimal(n: nat): (r: string)
    ensures |r| >= 1
    ensures forall k :: 0 <= k < |r| ==> IsDigit(r[k])
    ensures r[0] == '0' ==> n == 0
    decreases n
  {
    if n < 10 then [DigitChar(n)] else Decimal(n / 10) + [DigitChar(n % 10)]
  }

  /** Only decimal digits. */
  predicate IsDigits(s: string) {
    forall k :: 0 <= k < |s| ==> IsDigit(s[k])
  }

  /** The number a string of decimal digits denotes. */
  function DigitsValue(s: string): nat
    requires IsDigits(s)
  {
    if |s| == 0 then 0 else DigitsValue(s[..|s| - 1]) * 10 + DigitValue(s[|s| - 1])
  }

  /** Reading back a rendered number gives the number. */
  lemma {:induction false} DecimalRoundTrip(n: nat)
    ensures DigitsValue(Decimal(n)) == n
    decreases n
  {
    var r := Decimal(n);
    if n >= 10 {
      DecimalRoundTrip(n / 10);
      assert r[..|r| - 1] == Decimal(n / 10);
      assert DigitValue(r[|r| - 1]) == n % 10;
    }
  }
}

=== FILE: video_id.dfy ===
/** The YouTube video identifier in an address, found the way the component's
    regular expression finds it:

      (?:youtube(?:-nocookie)?\.com\/(?:[^\/\n\s]+\/\S+\/|(?:v|e(?:mbed)?)\/|.*[?&]v=)|youtu\.be\/)([A-Za-z0-9_-]{11})

    The search is leftmost: the first start position at which any path of the
    pattern succeeds wins, and at that position the alternatives are tried in
    the written order, each greedy quantifier giving back one character at a
    time. Each piece of the pattern is a function over positions below. */
module VideoId {
  import opened Wrappers
  import opened Text

  const IdLength := 11

  /** `[A-Za-z0-9_-]` */
  predicate IsIdChar(c: char) {
    ('A' <= c <= 'Z') || ('a' <= c <= 'z') || ('0' <= c <= '9') || c == '_' || c == '-'
  }

  /** A well-formed identifier: eleven identifier characters. */
  predicate IsVideoId(id: string) {
    |id| == IdLength && forall k :: 0 <= k < |id| ==> IsIdChar(id[k])
  }

  /** The capture group `([A-Za-z0-9_-]{11})` matches at `j`. */
  predicate IdAt(s: string, j: int) {
    0 <= j && j + IdLength <= |s| && forall k :: j <= k < j + IdLength ==> IsIdChar(s[k])
  }

  /** `[^\/\n\s]`: a character of one path segment. */
  predicate IsSegmentChar(c: char) {
    c != '/' && !IsJsSpace(c)
  }

  predicate IsNonSpace(c: char) {
    !IsJsSpace(c)
  }

  predicate NotLineTerminator(c: char) {
    !IsLineTerminator(c)
  }

  /** The identifier, if it matches at `j`. */
  function IdFrom(s: string, j: int): (r: Option<int>)
    ensures r.Some? ==> r.value == j && IdAt(s, j)
    ensures r.None? ==> !IdAt(s, j)
  {
    if IdAt(s, j) then Some(j) else None
  }

  /** `youtube(?:-nocookie)?\.com\/` at `p`: the position after whichever of
      the two hosts stands there (at most one can, as they differ in their
      eighth character), or None when neither does. */
  function HostEnd(s: string, p: int): (h: Option<int>)
    ensures OccursAt(s, "youtube-nocookie.com/", p) ==> h == Some(p + 21)
    ensures OccursAt(s, "youtube.com/", p) ==> h == Some(p + 12)
    ensures h.None? <==> !OccursAt(s, "youtube-nocookie.com/", p) && !OccursAt(s, "youtube.com/", p)
  {
    HostsExclusive(s, p);
    if OccursAt(s, "youtube-nocookie.com/", p) then Some(p + 21)
    else if OccursAt(s, "youtube.com/", p) then Some(p + 12)
    else None
  }

  lemma HostsExclusive(s: string, p: int)
    ensures !(OccursAt(s, "youtube-nocookie.com/", p) && OccursAt(s, "youtube.com/", p))
  {
    if OccursAt(s, "youtube-nocookie.com/", p) && OccursAt(s, "youtube.com/", p) {
      OccursAtChar(s, "youtube-nocookie.com/", p, 7);
      OccursAtChar(s, "youtube.com/", p, 7);
    }
  }

  /** `/` at `b` followed by an identifier. */
  predicate IdAfterSlash(s: string, b: int) {
    0 <= b < |s| && s[b] == '/' && IdAt(s, b + 1)
  }

  /** The two places a greedy quantifier backs off to: a `/` before an
      identifier, or a `?v=`/`&v=` before an identifier. */
  datatype Marker = SlashBeforeId | VParamBeforeId

  predicate MarkerAt(s: string, m: Marker, k: int) {
    match m
    case SlashBeforeId => IdAfterSlash(s, k)
    case VParamBeforeId => VParamAt(s, k)
  }

  /** The largest `k` in `[lo, hi)` at which the marker stands: a greedy
      quantifier giving back one character at a time. */
  function LastMarker(s: string, m: Marker, lo: int, hi: int): (r: Option<int>)
    ensures r.Some? ==> lo <= r.value < hi && MarkerAt(s, m, r.value)
    ensures r.Some? ==> forall k :: r.value < k < hi ==> !MarkerAt(s, m, k)
    ensures r.None? ==> forall k :: lo <= k < hi ==> !MarkerAt(s, m, k)
    decreases hi - lo
  {
    if hi <= lo then None
    else if MarkerAt(s, m, hi - 1) then Some(hi - 1)
    else LastMarker(s, m, lo, hi - 1)
  }

  /** `[^\/\n\s]+\/\S+\/` then the identifier, from `h`. The segment run can
      only end at its longest extent, since the next character must be `/`;
      `\S+` then backs off from its longest extent to the last `/` that an
      identifier follows. */
  function SegmentsAlternative(s: string, h: int): (r: Option<int>)
    requires 0 <= h <= |s|
    ensures r.Some? ==> IdAt(s, r.value)
    ensures r.Some? ==> r.value >= 1 && IdAfterSlash(s, r.value - 1)
  {
    var a := RunEnd(s, h, IsSegmentChar);
    if a == h || a == |s| || s[a] != '/' then None
    else
      match LastMarker(s, SlashBeforeId, a + 2, RunEnd(s, a + 1, IsNonSpace))
      case Some(b) => Some(b + 1)
      case None => None
  }

  /** The segment alternative as the regular expression defines it: the
      segment run from `h` is non-empty and ends at a `/`, and the identifier
      follows the last `/` that an identifier follows within the non-space run
      after it (at least one character into that run); no match when there is
      no such `/`. */
  lemma SegmentsAlternativeSpec(s: string, h: int)
    requires 0 <= h <= |s|
    ensures var r, a := SegmentsAlternative(s, h), RunEnd(s, h, IsSegmentChar);
      r.Some? ==>
        && h < a < |s| && s[a] == '/'
        && a + 2 <= r.value - 1 < RunEnd(s, a + 1, IsNonSpace)
        && forall k :: r.value - 1 < k < RunEnd(s, a + 1, IsNonSpace) ==> !IdAfterSlash(s, k)
    ensures var r, a := SegmentsAlternative(s, h), RunEnd(s, h, IsSegmentChar);
      r.None? ==>
        || a == h || a == |s| || s[a] != '/'
        || forall k :: a + 2 <= k < RunEnd(s, a + 1, IsNonSpace) ==> !IdAfterSlash(s, k)
  {
    assert forall k :: MarkerAt(s, SlashBeforeId, k) <==> IdAfterSlash(s, k);
  }

  /** `(?:v|e(?:mbed)?)\/` then the identifier, from `h`. */
  function KeywordAlternative(s: string, h: int): (r: Option<int>)
    ensures r.Some? ==> IdAt(s, r.value)
    ensures r.Some? ==> r.value == h + 2 || (r.value == h + 6 && OccursAt(s, "embed/", h))
  {
    if OccursAt(s, "v/", h) then IdFrom(s, h + 2)
    else if OccursAt(s, "embed/", h) then IdFrom(s, h + 6)
    else if OccursAt(s, "e/", h) then IdFrom(s, h + 2)
    else None
  }

  /** The keyword alternative as the regular expression defines it: whichever
      of `v/`, `embed/` and `e/` stands at `h` (at most one can) must be
      followed by an identifier, and there is no match when none stands there.
      Backtracking from `embed/` to `e/` can never succeed. */
  lemma KeywordAlternativeSpec(s: string, h: int)
    ensures OccursAt(s, "v/", h) ==>
      KeywordAlternative(s, h) == (if IdAt(s, h + 2) then Some(h + 2) else None)
    ensures OccursAt(s, "embed/", h) ==>
      KeywordAlternative(s, h) == (if IdAt(s, h + 6) then Some(h + 6) else None)
    ensures OccursAt(s, "e/", h) ==>
      KeywordAlternative(s, h) == (if IdAt(s, h + 2) then Some(h + 2) else None)
    ensures !OccursAt(s, "v/", h) && !OccursAt(s, "embed/", h) && !OccursAt(s, "e/", h) ==>
      KeywordAlternative(s, h).None?
  {
    KeywordsExclusive(s, h);
  }

  /** At most one of the keywords stands at `h`: `v/` and `e…` differ in
      their first character, `embed/` and `e/` in their second. */
  lemma KeywordsExclusive(s: string, h: int)
    ensures !(OccursAt(s, "v/", h) && OccursAt(s, "embed/", h))
    ensures !(OccursAt(s, "v/", h) && OccursAt(s, "e/", h))
    ensures !(OccursAt(s, "embed/", h) && OccursAt(s, "e/", h))
  {
    if OccursAt(s, "v/", h) && OccursAt(s, "embed/", h) {
      OccursAtChar(s, "v/", h, 0);
      OccursAtChar(s, "embed/", h, 0);
    }
    if OccursAt(s, "v/", h) && OccursAt(s, "e/", h) {
      OccursAtChar(s, "v/", h, 0);
      OccursAtChar(s, "e/", h, 0);
    }
    if OccursAt(s, "embed/", h) && OccursAt(s, "e/", h) {
      OccursAtChar(s, "embed/", h, 1);
      OccursAtChar(s, "e/", h, 1);
    }
  }

  /** `[?&]v=` at `q` followed by an identifier. */
  predicate VParamAt(s: string, q: int) {
    0 <= q && q + 3 <= |s| && (s[q] == '?' || s[q] == '&') && s[q + 1] == 'v' && s[q + 2] == '='
    && IdAt(s, q + 3)
  }

  /** `.*[?&]v=` then the identifier, from `h`: `.*` stops at a line
      terminator and backs off to the last `?v=` or `&v=` that an identifier
      follows. */
  function QueryAlternative(s: string, h: int): (r: Option<int>)
    requires 0 <= h <= |s|
    ensures r.Some? ==> IdAt(s, r.value)
    ensures r.Some? ==> r.value >= h + 3 && VParamAt(s, r.value - 3)
  {
    match LastMarker(s, VParamBeforeId, h, RunEnd(s, h, NotLineTerminator))
    case Some(q) => Some(q + 3)
    case None => None
  }

  /** The query alternative as the regular expression defines it: the
      identifier follows the last `?v=` or `&v=` before the end of the host's
      line that an identifier follows; no match when there is none. */
  lemma QueryAlternativeSpec(s: string, h: int)
    requires 0 <= h <= |s|
    ensures var r, t := QueryAlternative(s, h), RunEnd(s, h, NotLineTerminator);
      r.Some? ==> h <= r.value - 3 < t && forall k :: r.value - 3 < k < t ==> !VParamAt(s, k)
    ensures var r, t := QueryAlternative(s, h), RunEnd(s, h, NotLineTerminator);
      r.None? ==> forall k :: h <= k < t ==> !VParamAt(s, k)
  {
    assert forall k :: MarkerAt(s, VParamBeforeId, k) <==> VParamAt(s, k);
  }

  /** `youtu\.be\/` then the identifier, at `p`. */
  function ShortLinkAlternative(s: string, p: int): (r: Option<int>)
    ensures r.Some? ==> r.value == p + 9 && OccursAt(s, "youtu.be/", p) && IdAt(s, r.value)
    ensures !OccursAt(s, "youtu.be/", p) ==> r.None?
  {
    if OccursAt(s, "youtu.be/", p) then IdFrom(s, p + 9) else None
  }

  /** The position of the identifier when the whole pattern matches starting
      at `p`, the alternatives tried in order. */
  function MatchAt(s: string, p: int): (r: Option<int>)
    ensures r.Some? ==> IdAt(s, r.value)
    ensures r.Some? ==>
      || OccursAt(s, "youtube-nocookie.com/", p) || OccursAt(s, "youtube.com/", p)
      || OccursAt(s, "youtu.be/", p)
  {
    var long := match HostEnd(s, p)
      case Some(h) =>
        SegmentsAlternative(s, h).OrElse(KeywordAlternative(s, h)).OrElse(QueryAlternative(s, h))
      case None => None;
    long.OrElse(ShortLinkAlternative(s, p))
  }

  /** A match: where it starts and where its captured identifier starts. */
  datatype Found = Found(start: int, capture: int)

  /** The leftmost start position, from `from` on, at which the pattern
      matches, with the position of the identifier it captures. */
  function FirstMatch(s: string, from: nat): (r: Option<Found>)
    ensures r.Some? ==> from <= r.value.start < |s| && MatchAt(s, r.value.start) == Some(r.value.capture)
    ensures r.Some? ==> IdAt(s, r.value.capture)
    ensures r.Some? ==> forall q :: from <= q < r.value.start ==> MatchAt(s, q).None?
    ensures r.None? ==> forall q :: from <= q < |s| ==> MatchAt(s, q).None?
    decreases |s| - from
  {
    if from >= |s| then None
    else
      match MatchAt(s, from)
      case Some(j) => Some(Found(from, j))
      case None => FirstMatch(s, from + 1)
  }

  /** `extractYouTubeID(url)`: None for the empty string, otherwise the
      identifier captured by the leftmost match, if any. */
  function ExtractYouTubeId(url: string): (r: Option<string>)
    ensures |url| == 0 ==> r == None
    ensures r.Some? ==> IsVideoId(r.value)
    ensures r.None? <==> |url| == 0 || forall p :: 0 <= p < |url| ==> MatchAt(url, p).None?
  {
    if |url| == 0 then None
    else
      match FirstMatch(url, 0)
      case Some(f) => Some(url[f.capture..f.capture + IdLength])
      case None => None
  }

  /** The leftmost position at which the pattern matches decides the result. */
  lemma ExtractFromLeftmost(s: string, p: int)
    requires 0 <= p < |s| && MatchAt(s, p).Some?
    requires forall q :: 0 <= q < p ==> MatchAt(s, q).None?
    ensures ExtractYouTubeId(s) == Some(s[MatchAt(s, p).value..MatchAt(s, p).value + IdLength])
  {
    FirstMatchIsLeftmost(s, p);
    ExtractOfFound(s, Found(p, MatchAt(s, p).value));
  }

  /** The identifier is read at the capture of the leftmost match. */
  lemma ExtractOfFound(s: string, f: Found)
    requires |s| > 0 && FirstMatch(s, 0) == Some(f)
    ensures 0 <= f.capture && f.capture + IdLength <= |s|
    ensures ExtractYouTubeId(s) == Some(s[f.capture..f.capture + IdLength])
  {
  }

  lemma FirstMatchIsLeftmost(s: string, p: int)
    requires 0 <= p < |s| && MatchAt(s, p).Some?
    requires forall q :: 0 <= q < p ==> MatchAt(s, q).None?
    ensures FirstMatch(s, 0) == Some(Found(p, MatchAt(s, p).value))
  {
    var r := FirstMatch(s, 0);
    if r.None? {
      assert false;
    } else if r.value.start < p {
      assert false;
    } else if r.value.start > p {
      assert false;
    }
  }

  /** Every match begins with `y`, so none starts inside a prefix without one. */
  lemma NoMatchInPrefix(s: string, pre: string)
    requires pre <= s && 'y' !in pre
    ensures forall q :: 0 <= q < |pre| ==> MatchAt(s, q).None?
  {
    forall q | 0 <= q < |pre|
      ensures MatchAt(s, q).None?
    {
      assert s[q] == pre[q];
      if OccursAt(s, "youtube-nocookie.com/", q) {
        OccursAtChar(s, "youtube-nocookie.com/", q, 0);
      } else if OccursAt(s, "youtube.com/", q) {
        OccursAtChar(s, "youtube.com/", q, 0);
      } else if OccursAt(s, "youtu.be/", q) {
        OccursAtChar(s, "youtu.be/", q, 0);
      }
    }
  }

  predicate IsYouTubeHost(host: string) {
    host == "youtube.com/" || host == "youtube-nocookie.com/"
  }

  /** Where the host part of an address built from `host` ends. */
  lemma HostEndOf(s: string, p: int, host: string)
    requires IsYouTubeHost(host) && OccursAt(s, host, p)
    ensures HostEnd(s, p) == Some(p + |host|)
  {
    if host == "youtube.com/" {
      OccursAtChar(s, host, p, 7);
      if OccursAt(s, "youtube-nocookie.com/", p) {
        OccursAtChar(s, "youtube-nocookie.com/", p, 7);
      }
    }
  }

  /** A character that is not an identifier character and does not occur in
      the rest of the address does not occur after the identifier's start. */
  lemma NoCharAfter(s: string, j: int, id: string, rest: string, c: char)
    requires IsVideoId(id) && !IsIdChar(c) && c !in rest
    requires 0 <= j <= |s| && s[j..] == id + rest
    ensures forall k :: j <= k < |s| ==> s[k] != c
  {
    forall k | j <= k < |s|
      ensures s[k] != c
    {
      assert s[k] == (id + rest)[k - j];
      if k - j < |id| {
        assert IsIdChar(id[k - j]);
      }
    }
  }

  /** After `embed/` with no `/` further on, the segment alternative fails. */
  lemma SegmentsFailAfterEmbed(s: string, h: int)
    requires OccursAt(s, "embed/", h)
    requires forall k :: h + 6 <= k < |s| ==> s[k] != '/'
    ensures SegmentsAlternative(s, h).None?
  {
    var a := RunEnd(s, h, IsSegmentChar);
    forall k | 0 <= k < 6
      ensures s[h + k] == "embed/"[k]
    {
      OccursAtChar(s, "embed/", h, k);
    }
    assert IsSegmentChar(s[h]) && IsSegmentChar(s[h + 1]) && IsSegmentChar(s[h + 2])
      && IsSegmentChar(s[h + 3]) && IsSegmentChar(s[h + 4]) && !IsSegmentChar(s[h + 5]);
    assert a == h + 5;
  }

  /** `embed/` followed by an identifier is taken by the keyword alternative. */
  lemma KeywordAtEmbed(s: string, h: int)
    requires OccursAt(s, "embed/", h) && IdAt(s, h + 6)
    ensures KeywordAlternative(s, h) == Some(h + 6)
  {
    OccursAtChar(s, "embed/", h, 0);
    if OccursAt(s, "v/", h) {
      OccursAtChar(s, "v/", h, 0);
    }
  }

  /** An identifier at `j` in `s` is `s[j..j+11]`. */
  lemma IdAtSlice(s: string, j: int, id: string)
    requires 0 <= j && j + |id| <= |s| && s[j..j + |id|] == id && IsVideoId(id)
    ensures IdAt(s, j)
  {
    forall k | j <= k < j + IdLength
      ensures IsIdChar(s[k])
    {
      assert s[k] == id[k - j];
    }
  }

  /** A host, `embed/` and an identifier with no later `/`: the pattern
      matches at the host and captures that identifier. */
  lemma EmbedMatch(s: string, p: int, h: int)
    requires HostEnd(s, p) == Some(h)
    requires OccursAt(s, "embed/", h) && IdAt(s, h + 6)
    requires forall k :: h + 6 <= k < |s| ==> s[k] != '/'
    ensures MatchAt(s, p) == Some(h + 6)
  {
    SegmentsFailAfterEmbed(s, h);
    KeywordAtEmbed(s, h);
  }

  /** `...youtube.com/embed/<id>`: the id comes back, provided no `/` follows it. */
  lemma EmbedRoundTrip(pre: string, host: string, id: string, rest: string)
    requires IsYouTubeHost(host) && 'y' !in pre
    requires IsVideoId(id) && '/' !in rest
    ensures ExtractYouTubeId(pre + host + "embed/" + id + rest) == Some(id)
  {
    var s := pre + host + "embed/" + id + rest;
    var p := |pre|;
    var h := p + |host|;
    assert s[..p] == pre;
    assert s[p..h] == host;
    assert OccursAt(s, host, p);
    assert s[h..h + 6] == "embed/";
    assert s[h + 6..h + 6 + IdLength] == id;
    assert s[h + 6..] == id + rest;
    HostEndOf(s, p, host);
    NoCharAfter(s, h + 6, id, rest, '/');
    IdAtSlice(s, h + 6, id);
    EmbedMatch(s, p, h);
    NoMatchInPrefix(s, pre);
    ExtractFromLeftmost(s, p);
  }

  /** Without any `/` from `h` on, the segment alternative fails. */
  lemma SegmentsFailWithoutSlash(s: string, h: int)
    requires 0 <= h <= |s|
    requires forall k :: h <= k < |s| ==> s[k] != '/'
    ensures SegmentsAlternative(s, h).None?
  {
  }

  /** `watch?v=` followed by an identifier, with no later `=`, is taken by the
      query alternative. */
  lemma QueryAtWatch(s: string, h: int)
    requires OccursAt(s, "watch?v=", h) && IdAt(s, h + 8)
    requires forall k :: h + 8 <= k < |s| ==> s[k] != '='
    ensures QueryAlternative(s, h) == Some(h + 8)
  {
    forall k | 0 <= k < 8
      ensures s[h + k] == "watch?v="[k]
    {
      OccursAtChar(s, "watch?v=", h, k);
    }
    var t := RunEnd(s, h, NotLineTerminator);
    assert t > h + 5;
    assert s[h + 5] == "watch?v="[5] == '?';
    assert s[h + 6] == "watch?v="[6] == 'v';
    assert s[h + 7] == "watch?v="[7] == '=';
    assert MarkerAt(s, VParamBeforeId, h + 5);
    var r := LastMarker(s, VParamBeforeId, h, t);
    assert r.Some? && r.value >= h + 5;
  }

  /** After `watch?v=` and an identifier, with no later `/` or `=`, only the
      query alternative matches, and it takes that identifier. */
  lemma WatchAlternatives(s: string, h: int)
    requires OccursAt(s, "watch?v=", h) && IdAt(s, h + 8)
    requires forall k :: h + 8 <= k < |s| ==> s[k] != '/'
    requires forall k :: h + 8 <= k < |s| ==> s[k] != '='
    ensures SegmentsAlternative(s, h).None?
    ensures KeywordAlternative(s, h).None?
    ensures QueryAlternative(s, h) == Some(h + 8)
  {
    forall k | h <= k < h + 8
      ensures s[k] != '/'
    {
      OccursAtChar(s, "watch?v=", h, k - h);
    }
    SegmentsFailWithoutSlash(s, h);
    OccursAtChar(s, "watch?v=", h, 0);
    if OccursAt(s, "v/", h) { OccursAtChar(s, "v/", h, 0); }
    if OccursAt(s, "embed/", h) { OccursAtChar(s, "embed/", h, 0); }
    if OccursAt(s, "e/", h) { OccursAtChar(s, "e/", h, 0); }
    QueryAtWatch(s, h);
  }

  /** A host, `watch?v=` and an identifier with no later `/` or `=`: the
      pattern matches at the host and captures that identifier. */
  lemma WatchMatch(s: string, p: int, h: int)
    requires HostEnd(s, p) == Some(h)
    requires OccursAt(s, "watch?v=", h) && IdAt(s, h + 8)
    requires forall k :: h + 8 <= k < |s| ==> s[k] != '/'
    requires forall k :: h + 8 <= k < |s| ==> s[k] != '='
    ensures MatchAt(s, p) == Some(h + 8)
  {
    WatchAlternatives(s, h);
  }

  /** `...youtube.com/watch?v=<id>`: the id comes back, provided no `/` and no
      `=` follows it. */
  lemma WatchRoundTrip(pre: string, host: string, id: string, rest: string)
    requires IsYouTubeHost(host) && 'y' !in pre
    requires IsVideoId(id) && '/' !in rest && '=' !in rest
    ensures ExtractYouTubeId(pre + host + "watch?v=" + id + rest) == Some(id)
  {
    var s := pre + host + "watch?v=" + id + rest;
    var p := |pre|;
    var h := p + |host|;
    assert s[..p] == pre;
    assert s[p..h] == host;
    assert s[h..h + 8] == "watch?v=";
    assert s[h + 8..h + 8 + IdLength] == id;
    assert s[h + 8..] == id + rest;
    HostEndOf(s, p, host);
    NoCharAfter(s, h + 8, id, rest, '/');
    NoCharAfter(s, h + 8, id, rest, '=');
    IdAtSlice(s, h + 8, id);
    WatchMatch(s, p, h);
    NoMatchInPrefix(s, pre);
    ExtractFromLeftmost(s, p);
  }

  lemma ShortLinkMatch(s: string, p: int)
    requires OccursAt(s, "youtu.be/", p) && IdAt(s, p + 9)
    ensures MatchAt(s, p) == Some(p + 9)
  {
    OccursAtChar(s, "youtu.be/", p, 5);
    if OccursAt(s, "youtube.com/", p) { OccursAtChar(s, "youtube.com/", p, 5); }
    if OccursAt(s, "youtube-nocookie.com/", p) { OccursAtChar(s, "youtube-nocookie.com/", p, 5); }
  }

  /** `...youtu.be/<id>`: the id comes back, whatever follows it. */
  lemma ShortLinkRoundTrip(pre: string, id: string, rest: string)
    requires 'y' !in pre && IsVideoId(id)
    ensures ExtractYouTubeId(pre + "youtu.be/" + id + rest) == Some(id)
  {
    var s := pre + "youtu.be/" + id + rest;
    var p := |pre|;
    assert s[..p] == pre;
    assert s[p..p + 9] == "youtu.be/";
    assert s[p + 9..p + 9 + IdLength] == id;
    IdAtSlice(s, p + 9, id);
    ShortLinkMatch(s, p);
    NoMatchInPrefix(s, pre);
    ExtractFromLeftmost(s, p);
  }

  /** An address naming none of the three hosts yields no identifier; and an
      identifier is found only in an address naming one of them. */
  lemma NoHostNoId(url: string)
    ensures (!Contains(url, "youtube.com/") && !Contains(url, "youtube-nocookie.com/")
             && !Contains(url, "youtu.be/")) ==> ExtractYouTubeId(url).None?
  {
    forall p | 0 <= p < |url| && MatchAt(url, p).Some?
      ensures Contains(url, "youtube.com/") || Contains(url, "youtube-nocookie.com/")
        || Contains(url, "youtu.be/")
    {
      if OccursAt(url, "youtube.com/", p) {
        ContainsAt(url, "youtube.com/", p);
      } else if OccursAt(url, "youtube-nocookie.com/", p) {
        ContainsAt(url, "youtube-nocookie.com/", p);
      } else {
        ContainsAt(url, "youtu.be/", p);
      }
    }
  }
}
